=== FILE: README.md ===
# TicketBlitz stock reservation, modelled in Dafny

TicketBlitz sells a fixed stock of tickets during a flash sale. The stock lives in two places. The Redis key `ticket_inventory` is the operational counter. A buy decrements it with a Lua script that Redis runs indivisibly: it decrements only when the stock is positive. The Postgres table `inventory` is the durable ledger. Only a reset writes it. A reset truncates the table, inserts the row `(1, 100)` and sets the counter to 100.

The model has four modules:

- `Wrappers` (`wrappers.dfy`): `Option`.
- `Store` (`store.dfy`): the repository. It holds the Lua guarded decrement, `BuyTicketAtomic`, `ResetInventory` (TRUNCATE, INSERT and SET as separate steps) and `SetupDatabase`. The backends are one immutable `State`: the schema flag, the ledger rows and the counter, where `None` means the key is absent. Each step is a pure function with a failure-injection parameter. For Redis, `Link` says whether the command was delivered, never arrived, or ran but lost its reply. For each SQL statement, a flag says whether it fails.
- `Handlers` (`handlers.dfy`): the gin handlers. They map repository results to a status code and a one-key JSON body.
- `Sale` (`sale.dfy`): linearised request sequences. Redis runs each command and each script on the key indivisibly, and Postgres runs each statement indivisibly, so any interleaving of concurrent requests is a sequence of atomic steps. The lemmas cover every such sequence and every failure pattern. A reset is one step in this sequence. `Store.BuyCommutesWithLedgerWrites` justifies this against buys: a buy that lands between the ledger statements of a reset behaves as if it ran before the reset. Two overlapping resets are not serialised by anything: A's TRUNCATE, B's TRUNCATE, A's INSERT, then B's INSERT fails on the primary key. The model reaches the same final state and responses by running B first with a failing INSERT, then A.

Three behaviours of the code are modelled as written:

- An absent key is not read as a stock of 0. `tonumber(GET key)` is nil for an absent key, and `nil > 0` raises inside the script, so the buy fails with an error (500) rather than answering sold out.
- Reset takes no stock argument. The level is always the literal 100.
- A failed reset returns a single error whatever step failed. There is no separate "partial reset" error. A failed SET after both ledger statements leaves the ledger rewritten. The counter is stale if the SET never reached Redis, and already 100 if only its reply was lost. Either way the caller sees the same 500 as for any other failure.

## Model

| member | source | states |
|---|---|---|
| Store.BuyTicketAtomic | internal/repository/store.go:47-62 | Returns true only when the script saw positive stock and the reply arrived, and then the counter drops by exactly one. A present stock of 0 or less gives (false, nil) and changes nothing. An absent key is an error, never sold out. A command that never reached Redis changes nothing. A lost reply returns an error, but positive stock is still decremented. No error comes with true. The ledger is never touched. |
| Store.TruncateLedger | internal/repository/store.go:34-36 | TRUNCATE empties the ledger when the table exists and the statement succeeds. Otherwise it fails and changes nothing. |
| Store.InsertRow | internal/repository/store.go:37-39 | INSERT appends the row exactly when the table exists, the primary key is free and the statement succeeds. Otherwise nothing changes. |
| Store.SetCounter | internal/repository/store.go:42 | SET overwrites the counter whatever it held. It reports success only when the reply arrives. A lost reply still leaves the value written. |
| Store.ResetInventory | internal/repository/store.go:32-43 | A reset succeeds exactly when the table exists and no call fails. Success leaves the ledger as exactly [(1,100)] and the counter at 100. A failed TRUNCATE changes nothing. A failed INSERT leaves an empty ledger and the old counter. A failed SET returns an error with the ledger already at [(1,100)]. The counter is then stale if the SET never arrived, or 100 if only its reply was lost. The counter changes only after both ledger statements succeed. |
| Store.ResetTwice | internal/repository/store.go:32-43 | Two successful resets in a row leave counter 100 and the single row (1,100). Resets overwrite and never accumulate. |
| Store.SetupDatabase | internal/repository/store.go:26-29 | CREATE TABLE IF NOT EXISTS creates the schema on success and never touches existing rows or the counter. A failure changes nothing. |
| Store.SetupIdempotent | internal/repository/store.go:26-29 | Running setup twice leaves the same state as running it once. |
| Store.BuyCommutesWithLedgerWrites | internal/repository/store.go:32-62 | A buy commutes with the TRUNCATE and with the INSERT of a reset: the buy's result, the statement's result and the final state are all unchanged. A buy between the INSERT and the SET gives the same result and the same reset outcome as a buy run before the whole reset. |
| Handlers.BuyResponse | internal/handlers/ticket.go:26-38 | An error answers 500 with an "error" body whatever the boolean is. A purchase answers 200 "Ticket purchased!". Sold out answers 410 with a "message" body. |
| Handlers.BuyResponseFaithful | internal/handlers/ticket.go:26-38 | The buy status is always 200, 410 or 500. The response reads back as the outcome (purchased, sold out or system error) of its (success, err) pair. Two pairs get the same response exactly when they mean the same outcome. |
| Handlers.ResetResponseFor | internal/handlers/ticket.go:18-24 | A reset answers 200 "Inventory reset to 100" exactly when the repository returned no error. Otherwise it answers 500 with an "error" body. |
| Handlers.BuyTicket | internal/handlers/ticket.go:26-38 | The buy handler writes exactly one response. It is 200 "Ticket purchased!" exactly for positive stock reached over a good link. It is 410 exactly for a present stock of 0 or less. It is 500 with the "error" body exactly for an absent key or a failed round trip. It is always the mapping of the repository's result. |
| Handlers.ResetInventory | internal/handlers/ticket.go:18-24 | The reset handler writes exactly one response. It is the success response exactly when the schema exists and no backend call fails, and the 500 error response otherwise. It is always the mapping of the repository's error. |
| Sale.Handle | internal/handlers/ticket.go:18-38 | Dispatching a request to its handler writes one response, and that response and the next state are exactly the step the sequence lemmas reason about. |
| Sale.Serve | internal/handlers/ticket.go:18-38 | Each request in a linearised sequence gets exactly one response, in order. Buys get 200, 410 or 500. Resets get the reset success or error response. |
| Sale.ServeKeepsCounterInRange | internal/repository/store.go:42-55 | From a counter that is absent or in [0,100], no sequence of buys and resets, with any failures, leaves that range. |
| Sale.ServeKeepsLedgerCanonical | internal/repository/store.go:34-39 | The ledger only ever holds nothing or the single row (1,100), and a missing table holds no rows. |
| Sale.BuysLeaveLedger | internal/repository/store.go:47-62 | Any sequence of buys leaves the ledger and the schema unchanged. |
| Sale.StepAccounting | internal/repository/store.go:42-55 | One request sells at most one ticket, and only from stock the counter held or a reset wrote. The counter never goes negative. |
| Sale.NoOversell | internal/repository/store.go:42-55 | For every request sequence and failure pattern, tickets sold plus stock left is at most the starting stock plus 100 per reset. |
| Sale.DeliveredBuysSellFirstK | internal/repository/store.go:47-61 | From a stock of k, n delivered buys sell to the first min(n,k) requests and answer 410 to the rest. The final counter is max(k-n,0). |
| Sale.ResetThenBuys | internal/repository/store.go:32-61 | A successful reset followed by n buys gives exactly min(n,100) purchases and n-min(n,100) sold-out answers. The final counter is max(100-n,0). |
| Sale.ResetThen150Buys | internal/repository/store.go:32-61 | Reset, then 150 buys: 100 purchased, 50 sold out, counter 0. |
| Sale.ResetThenAnyBuys | internal/repository/store.go:32-61 | After a successful reset, n buys sell at most min(n,100) tickets, whatever their round trips meet. |
| Sale.ExhaustedStaysExhausted | internal/repository/store.go:50-55 | Once the counter is 0 or less, every later buy answers 410 or 500 and sells nothing, and the counter stays put. With delivered buys, every answer is 410. |
| Sale.ZeroThen10Buys | internal/repository/store.go:50-55 | Counter 0, then 10 buys: all 10 answer sold out and the counter stays 0. |
| Sale.LostReplyLosesTicket | internal/repository/store.go:47-60 | When the last ticket's script runs but its reply is lost, the buyer gets 500, nothing counts as sold, and no stock is left. |
| Sale.ResetNeedsSchema | internal/repository/store.go:26-39 | Before the schema exists a reset fails with 500 and changes nothing. After a successful setup, a fault-free reset succeeds. |
| Sale.AbsentKeyIsAnError | internal/repository/store.go:49-60 | While the key is absent, every buy answers 500 (never 410) and changes nothing. |

## Left out

- `cmd/server/main.go`: connection strings, pool settings, the gin router and process start-up are configuration and I/O. `SetupDatabase` is modelled, but the fatal exit on its failure is not.
- `attack.js`: a load-test script, not product code.
- Real concurrency. Requests are an arbitrary sequence of atomic steps, which is what Redis's per-key serialisation gives the script. A reset is one step. A buy between its ledger statements commutes with them (`Store.BuyCommutesWithLedgerWrites`). A buy between the INSERT and the SET sees the old counter. The SET overwrites it either way.
- Redis values are integers or absent. A non-numeric string under the key, which makes `tonumber` return nil, is covered only as the absent case. The 64-bit range of Redis integers is not modelled. The program never writes the key at startup, so until the first reset it holds whatever Redis already had. From an absent key or a value in [0,100], the counter stays in [0,100] (`Sale.ServeKeepsCounterInRange`). A value that something else wrote under the key is not covered, for example one above 100 or beyond the 64-bit range.
- Postgres failures are whole-statement failures with no effect. A commit whose acknowledgement is lost is not modelled for Postgres. For Redis, the lost reply is modelled as `ReplyLost`.
- Store.BuyTicketAtomic: models one EVAL round trip per call. The Redis client is built with default options (cmd/server/main.go:39-41), and such a client may re-send a command after a read timeout or a dropped connection. Every re-sent EVAL runs the script again. So one call can decrement more than once, and it can return (true, nil) after more than one decrement. The model does not include these retries, because the client library is not part of this model. In `Sale`, each re-send acts like an extra `Buy(ReplyLost)` step, and `Sale.NoOversell` still bounds what is sold.
- Store.ResetInventory: models one SET round trip. The same default client may re-send the `SET ticket_inventory 100` after a read timeout. A re-sent SET that lands after later buys puts the counter back to 100, so one reset request can restore the stock twice. The retry is not modelled, for the same reason as for the EVAL. With retries, `Resets(reqs)` in `Sale.NoOversell` must count every SET that Redis ran, including re-sent ones.
- The `context.Background()` context, gin's JSON encoding and headers are not modelled. Only the status, the body key and the body text are kept.
- The model has no request idempotency key, matching the source. A buy whose reply is lost may still have consumed a ticket. `Sale.NoOversell` bounds the tickets sold but does not count lost tickets as sold.

=== FILE: handlers.dfy ===
/**
  The HTTP handlers of TicketBlitz: each maps one repository result to one JSON
  response. Only the status code and the body's key and text are modelled.
*/
module Handlers {
  import opened Wrappers
  import Store

  const StatusOK: int := 200
  const StatusGone: int := 410
  const StatusInternalServerError: int := 500

  /** A JSON body with a single key: `{"message": text}` or `{"error": text}`. */
  datatype Body = Message(text: string) | Error(text: string)

  datatype Response = Response(status: int, body: Body)

  const PurchasedResponse := Response(StatusOK, Message("Ticket purchased!"))
  const SoldOutResponse := Response(StatusGone, Message("Sold out!"))
  const BuyErrorResponse := Response(StatusInternalServerError, Error("Internal system error"))
  const ResetResponse := Response(StatusOK, Message("Inventory reset to 100"))
  const ResetErrorResponse := Response(StatusInternalServerError, Error("Failed to reset inventory"))

  /** What a purchase attempt means to the buyer. */
  datatype Outcome = Purchased | SoldOut | SystemError

  /** The meaning of a repository `(success, err)` pair: any error wins over the boolean. */
  function OutcomeOf(success: bool, err: Option<Store.StoreError>): Outcome
  {
    if err.Some? then SystemError else if success then Purchased else SoldOut
  }

  /** Reads a buy response back as an outcome, from its status and body key only. */
  function Classify(r: Response): Option<Outcome>
  {
    if r.status == StatusOK && r.body.Message? then Some(Purchased)
    else if r.status == StatusGone && r.body.Message? then Some(SoldOut)
    else if r.status == StatusInternalServerError && r.body.Error? then Some(SystemError)
    else None
  }

  /** The response `TicketHandler.BuyTicket` writes for a repository result. */
  function BuyResponse(success: bool, err: Option<Store.StoreError>): (r: Response)
    // an error answers 500 with an "error" body, whatever the boolean is
    ensures err.Some? ==> r.status == StatusInternalServerError && r.body.Error?
    ensures err.None? && success ==> r == PurchasedResponse
    ensures err.None? && !success ==> r.status == StatusGone && r.body.Message?
  {
    if err.Some? then BuyErrorResponse
    else if success then PurchasedResponse
    else SoldOutResponse
  }

  /**
    The buy status is a total function of `(success, err)` with exactly three
    values, and the response can be read back as the outcome it reports: two
    results get the same response exactly when they mean the same outcome.
  */
  lemma BuyResponseFaithful(success: bool, err: Option<Store.StoreError>,
                            success': bool, err': Option<Store.StoreError>)
    ensures BuyResponse(success, err).status in {StatusOK, StatusGone, StatusInternalServerError}
    ensures Classify(BuyResponse(success, err)) == Some(OutcomeOf(success, err))
    ensures BuyResponse(success, err) == BuyResponse(success', err')
        <==> OutcomeOf(success, err) == OutcomeOf(success', err')
  {
  }

  /** The response `TicketHandler.ResetInventory` writes for a repository error. */
  function ResetResponseFor(err: Option<Store.StoreError>): (r: Response)
    ensures r.status == StatusOK <==> err.None?
    ensures err.None? ==> r == ResetResponse
    ensures err.Some? ==> r.status == StatusInternalServerError && r.body.Error?
  {
    if err.Some? then ResetErrorResponse else ResetResponse
  }

  /**
    `TicketHandler.BuyTicket`: one repository call, then one `c.JSON` write; the
    error path returns before the purchase/sold-out branch. `emitted` lists the
    responses written, in order.
  */
  method BuyTicket(s: Store.State, link: Store.Link) returns (next: Store.State, emitted: seq<Response>)
    ensures |emitted| == 1
    ensures next == Store.BuyTicketAtomic(s, link).next
    ensures emitted[0] == PurchasedResponse
        <==> link == Store.Delivered && s.counter.Some? && s.counter.value > 0
    ensures emitted[0] == SoldOutResponse
        <==> link == Store.Delivered && s.counter.Some? && s.counter.value <= 0
    ensures emitted[0].status == StatusInternalServerError
        <==> link != Store.Delivered || s.counter.None?
    // the 500 carries the "error" body
    ensures emitted[0].status == StatusInternalServerError ==> emitted[0] == BuyErrorResponse
    // the handler writes exactly the mapping of the repository's result
    ensures var b := Store.BuyTicketAtomic(s, link);
            emitted == [BuyResponse(b.out.success, b.out.err)]
  {
    var result := Store.BuyTicketAtomic(s, link);
    next := result.next;
    emitted := [];
    if result.out.err.Some? {
      emitted := emitted + [BuyErrorResponse];
      return;
    }
    if result.out.success {
      emitted := emitted + [PurchasedResponse];
    } else {
      emitted := emitted + [SoldOutResponse];
    }
  }

  /**
    `TicketHandler.ResetInventory`: one repository call, then one `c.JSON` write;
    the error path returns before the success response.
  */
  method ResetInventory(s: Store.State, f: Store.ResetFaults) returns (next: Store.State, emitted: seq<Response>)
    ensures |emitted| == 1
    ensures next == Store.ResetInventory(s, f).next
    ensures emitted[0] == ResetResponse <==> s.tableExists && f == Store.NoResetFaults
    ensures emitted[0] != ResetResponse ==> emitted[0] == ResetErrorResponse
    // the handler writes exactly the mapping of the repository's result
    ensures emitted == [ResetResponseFor(Store.ResetInventory(s, f).out)]
  {
    var result := Store.ResetInventory(s, f);
    next := result.next;
    emitted := [];
    if result.out.Some? {
      emitted := emitted + [ResetErrorResponse];
      return;
    }
    emitted := emitted + [ResetResponse];
  }
}

=== FILE: sale.dfy ===
/**
  A flash sale as the backends see it. The HTTP server handles requests
  concurrently, but Redis runs each command and each script indivisibly and
  Postgres runs each statement indivisibly, so any interleaving of requests is
  some sequence of atomic steps. A reset is taken as one step: a buy commutes
  with its ledger statements (`Store.BuyCommutesWithLedgerWrites`). The lemmas
  below hold for every such sequence and every pattern of injected failures.
*/
module Sale {
  import opened Wrappers
  import Store
  import opened Handlers

  /** One HTTP request, with the failures its backend calls will meet. */
  datatype Request = Buy(link: Store.Link) | Reset(faults: Store.ResetFaults)

  function Min(a: int, b: int): int { if a <= b then a else b }
  function Max(a: int, b: int): int { if a >= b then a else b }

  /** Handle one request: the repository step followed by the handler's response. */
  function Step(s: Store.State, req: Request): Store.Transition<Response>
  {
    match req
    case Buy(link) =>
      var b := Store.BuyTicketAtomic(s, link);
      Store.Transition(b.next, BuyResponse(b.out.success, b.out.err))
    case Reset(f) =>
      var r := Store.ResetInventory(s, f);
      Store.Transition(r.next, ResetResponseFor(r.out))
  }

  /**
    Dispatch one request to its gin handler, as the router does: the handler's
    single response and the state it leaves are exactly one `Step`.
  */
  method Handle(s: Store.State, req: Request) returns (next: Store.State, emitted: seq<Response>)
    ensures |emitted| == 1
    ensures Store.Transition(next, emitted[0]) == Step(s, req)
  {
    match req
    case Buy(link) =>
      next, emitted := Handlers.BuyTicket(s, link);
    case Reset(f) =>
      next, emitted := Handlers.ResetInventory(s, f);
  }

  /** Handle a linearised sequence of requests; every request gets exactly one response, in order. */
  function Serve(s: Store.State, reqs: seq<Request>): (r: Store.Transition<seq<Response>>)
    ensures |r.out| == |reqs|
    ensures forall i :: 0 <= i < |reqs| && reqs[i].Buy? ==>
              r.out[i].status in {StatusOK, StatusGone, StatusInternalServerError}
    ensures forall i :: 0 <= i < |reqs| && reqs[i].Reset? ==>
              r.out[i] in {ResetResponse, ResetErrorResponse}
    decreases |reqs|
  {
    if |reqs| == 0 then Store.Transition(s, [])
    else
      var h := Step(s, reqs[0]);
      var t := Serve(h.next, reqs[1..]);
      Store.Transition(t.next, [h.out] + t.out)
  }

  /** How many times `x` occurs in `rs`. */
  function Count(rs: seq<Response>, x: Response): nat
    decreases |rs|
  {
    if |rs| == 0 then 0 else (if rs[0] == x then 1 else 0) + Count(rs[1..], x)
  }

  /** Tickets handed out: responses that say "Ticket purchased!". */
  function Purchases(rs: seq<Response>): nat { Count(rs, PurchasedResponse) }

  /** How many reset requests a sequence holds. */
  function Resets(reqs: seq<Request>): nat
    decreases |reqs|
  {
    if |reqs| == 0 then 0 else (if reqs[0].Reset? then 1 else 0) + Resets(reqs[1..])
  }

  /** Every request of the sequence is a buy. */
  predicate AllBuys(reqs: seq<Request>)
  {
    forall i :: 0 <= i < |reqs| ==> reqs[i].Buy?
  }

  /** Every request of the sequence is a buy whose round trip succeeds. */
  predicate AllDeliveredBuys(reqs: seq<Request>)
  {
    forall i :: 0 <= i < |reqs| ==> reqs[i] == Buy(Store.Delivered)
  }

  /** The counter is absent or holds a stock level a reset can produce. */
  predicate CounterInRange(s: Store.State)
  {
    s.counter.None? || 0 <= s.counter.value <= Store.ResetStock
  }

  /** The counter is absent or non-negative. */
  predicate NonNegative(s: Store.State)
  {
    s.counter.None? || s.counter.value >= 0
  }

  /** Stock a buyer could still obtain: an absent key sells nothing. */
  function Level(s: Store.State): int
  {
    if s.counter.None? then 0 else s.counter.value
  }

  /**
    The ledger holds at most the single canonical row, and a missing table
    holds no rows.
  */
  predicate LedgerCanonical(s: Store.State)
  {
    && (s.ledger == [] || s.ledger == [Store.Row(Store.RowId, Store.ResetStock)])
    && (!s.tableExists ==> s.ledger == [])
  }

  lemma CountCons(h: Response, t: seq<Response>, x: Response)
    ensures Count([h] + t, x) == (if h == x then 1 else 0) + Count(t, x)
  {
    assert ([h] + t)[1..] == t;
  }

  lemma ResetsCons(reqs: seq<Request>)
    requires |reqs| > 0
    ensures Resets(reqs) == (if reqs[0].Reset? then 1 else 0) + Resets(reqs[1..])
  {
  }

  /* ---------------------------------------------------------------------------
     Invariants over arbitrary sequences
     --------------------------------------------------------------------------- */

  /**
    Starting from a counter that is absent or within [0, 100], no sequence of
    buys and resets, whatever fails, takes it outside that range.
  */
  lemma {:induction false} ServeKeepsCounterInRange(s: Store.State, reqs: seq<Request>)
    requires CounterInRange(s)
    ensures CounterInRange(Serve(s, reqs).next)
    decreases |reqs|
  {
    if |reqs| > 0 {
      var h := Step(s, reqs[0]);
      assert CounterInRange(h.next);
      ServeKeepsCounterInRange(h.next, reqs[1..]);
    }
  }

  /** The ledger never holds anything but the single row `(1, 100)`. */
  lemma {:induction false} ServeKeepsLedgerCanonical(s: Store.State, reqs: seq<Request>)
    requires LedgerCanonical(s)
    ensures LedgerCanonical(Serve(s, reqs).next)
    decreases |reqs|
  {
    if |reqs| > 0 {
      var h := Step(s, reqs[0]);
      assert LedgerCanonical(h.next);
      ServeKeepsLedgerCanonical(h.next, reqs[1..]);
    }
  }

  /** Buys touch only the counter: any sequence of them leaves the ledger and schema as they were. */
  lemma {:induction false} BuysLeaveLedger(s: Store.State, reqs: seq<Request>)
    requires AllBuys(reqs)
    ensures Serve(s, reqs).next.ledger == s.ledger
    ensures Serve(s, reqs).next.tableExists == s.tableExists
    decreases |reqs|
  {
    if |reqs| > 0 {
      BuysLeaveLedger(Step(s, reqs[0]).next, reqs[1..]);
    }
  }

  /** One request sells at most one ticket, and only from stock the counter held or a reset wrote. */
  lemma StepAccounting(s: Store.State, req: Request)
    requires NonNegative(s)
    ensures var h := Step(s, req);
            && NonNegative(h.next)
            && (if h.out == PurchasedResponse then 1 else 0) + Level(h.next)
               <= Level(s) + (if req.Reset? then Store.ResetStock else 0)
  {
  }

  /**
    No overselling, whatever the interleaving and whatever fails: tickets sold
    plus stock left never exceed the stock there was plus 100 per reset.
  */
  lemma {:induction false} NoOversell(s: Store.State, reqs: seq<Request>)
    requires NonNegative(s)
    ensures NonNegative(Serve(s, reqs).next)
    ensures Purchases(Serve(s, reqs).out) + Level(Serve(s, reqs).next)
         <= Level(s) + Store.ResetStock * Resets(reqs)
    decreases |reqs|
  {
    if |reqs| > 0 {
      var h := Step(s, reqs[0]);
      var t := Serve(h.next, reqs[1..]);
      StepAccounting(s, reqs[0]);
      NoOversell(h.next, reqs[1..]);
      CountCons(h.out, t.out, PurchasedResponse);
      ResetsCons(reqs);
    }
  }

  /* ---------------------------------------------------------------------------
     Exact counts
     --------------------------------------------------------------------------- */

  /**
    From a counter holding `k >= 0`, `n` buys that all reach Redis sell to the
    first `min(n, k)` requests, answer sold out to the rest, and leave
    `max(k - n, 0)`.
  */
  lemma {:induction false} DeliveredBuysSellFirstK(s: Store.State, reqs: seq<Request>, k: int)
    requires s.counter == Some(k) && k >= 0
    requires AllDeliveredBuys(reqs)
    ensures var r := Serve(s, reqs);
            && (forall i :: 0 <= i < |reqs| ==>
                  r.out[i] == (if i < k then PurchasedResponse else SoldOutResponse))
            && Purchases(r.out) == Min(|reqs|, k)
            && Count(r.out, SoldOutResponse) == |reqs| - Min(|reqs|, k)
            && r.next == s.(counter := Some(Max(k - |reqs|, 0)))
    decreases |reqs|
  {
    if |reqs| > 0 {
      var h := Step(s, reqs[0]);
      var k' := if k > 0 then k - 1 else 0;
      assert h.next == s.(counter := Some(k'));
      var t := Serve(h.next, reqs[1..]);
      DeliveredBuysSellFirstK(h.next, reqs[1..], k');
      CountCons(h.out, t.out, PurchasedResponse);
      CountCons(h.out, t.out, SoldOutResponse);
    }
  }

  /** `n` buys that all reach Redis. */
  function DeliveredBuys(n: nat): (reqs: seq<Request>)
    ensures |reqs| == n && AllDeliveredBuys(reqs)
  {
    seq(n, _ => Buy(Store.Delivered))
  }

  /**
    A successful reset followed by `n` buys: exactly `min(n, 100)` purchases,
    the rest sold out, and `max(100 - n, 0)` tickets left.
  */
  lemma ResetThenBuys(s: Store.State, n: nat)
    requires s.tableExists
    ensures var r := Serve(s, [Reset(Store.NoResetFaults)] + DeliveredBuys(n));
            && r.out[0] == ResetResponse
            && Purchases(r.out) == Min(n, Store.ResetStock)
            && Count(r.out, SoldOutResponse) == n - Min(n, Store.ResetStock)
            && r.next.counter == Some(Max(Store.ResetStock - n, 0))
  {
    var reqs := [Reset(Store.NoResetFaults)] + DeliveredBuys(n);
    var h := Step(s, reqs[0]);
    assert h.next == Store.ResetState;
    assert reqs[1..] == DeliveredBuys(n);
    var t := Serve(h.next, reqs[1..]);
    DeliveredBuysSellFirstK(h.next, reqs[1..], Store.ResetStock);
    CountCons(h.out, t.out, PurchasedResponse);
    CountCons(h.out, t.out, SoldOutResponse);
  }

  /** Reset to 100, then 150 buys: 100 purchased, 50 sold out, counter 0. */
  lemma ResetThen150Buys(s: Store.State)
    requires s.tableExists
    ensures var r := Serve(s, [Reset(Store.NoResetFaults)] + DeliveredBuys(150));
            && Purchases(r.out) == 100
            && Count(r.out, SoldOutResponse) == 50
            && r.next.counter == Some(0)
  {
    ResetThenBuys(s, 150);
  }

  /**
    After a successful reset, buys meeting any failures still sell at most
    `min(n, 100)` tickets.
  */
  lemma ResetThenAnyBuys(s: Store.State, buys: seq<Request>)
    requires s.tableExists
    requires AllBuys(buys)
    ensures Purchases(Serve(s, [Reset(Store.NoResetFaults)] + buys).out) <= Min(|buys|, Store.ResetStock)
  {
    var reqs := [Reset(Store.NoResetFaults)] + buys;
    var h := Step(s, reqs[0]);
    assert reqs[1..] == buys;
    var t := Serve(h.next, buys);
    NoOversell(h.next, buys);
    BuysHoldNoReset(buys);
    PurchasesAtMostLength(t.out);
    CountCons(h.out, t.out, PurchasedResponse);
  }

  lemma {:induction false} BuysHoldNoReset(reqs: seq<Request>)
    requires AllBuys(reqs)
    ensures Resets(reqs) == 0
    decreases |reqs|
  {
    if |reqs| > 0 {
      BuysHoldNoReset(reqs[1..]);
    }
  }

  lemma {:induction false} PurchasesAtMostLength(rs: seq<Response>)
    ensures Purchases(rs) <= |rs|
    decreases |rs|
  {
    if |rs| > 0 {
      PurchasesAtMostLength(rs[1..]);
    }
  }

  /* ---------------------------------------------------------------------------
     Exhaustion
     --------------------------------------------------------------------------- */

  /**
    Once the counter is at or below zero, every later buy, whatever its link,
    answers sold out or 500 and sells nothing, and the counter stays where it
    is until the next reset.
  */
  lemma {:induction false} ExhaustedStaysExhausted(s: Store.State, reqs: seq<Request>)
    requires s.counter.Some? && s.counter.value <= 0
    requires AllBuys(reqs)
    ensures var r := Serve(s, reqs);
            && r.next.counter == s.counter
            && Purchases(r.out) == 0
            && (forall i :: 0 <= i < |reqs| ==>
                  r.out[i] == SoldOutResponse || r.out[i] == BuyErrorResponse)
            && (AllDeliveredBuys(reqs) ==> Count(r.out, SoldOutResponse) == |reqs|)
    decreases |reqs|
  {
    if |reqs| > 0 {
      var h := Step(s, reqs[0]);
      var t := Serve(h.next, reqs[1..]);
      ExhaustedStaysExhausted(h.next, reqs[1..]);
      CountCons(h.out, t.out, PurchasedResponse);
      CountCons(h.out, t.out, SoldOutResponse);
    }
  }

  /** A counter at 0 and 10 buys: all 10 answer sold out and the counter stays 0. */
  lemma ZeroThen10Buys(s: Store.State)
    requires s.counter == Some(0)
    ensures var r := Serve(s, DeliveredBuys(10));
            Count(r.out, SoldOutResponse) == 10 && r.next.counter == Some(0)
  {
    ExhaustedStaysExhausted(s, DeliveredBuys(10));
  }

  /**
    A lost ticket: the last ticket's buy runs in Redis but its reply is lost, so
    the buyer gets a 500, nothing counts as sold, and no stock is left.
  */
  lemma LostReplyLosesTicket(s: Store.State)
    requires s.counter == Some(1)
    ensures var r := Serve(s, [Buy(Store.ReplyLost)]);
            && r.out == [BuyErrorResponse]
            && Purchases(r.out) == 0
            && Level(r.next) == 0
  {
    var h := Step(s, Buy(Store.ReplyLost));
    CountCons(h.out, [], PurchasedResponse);
  }

  /* ---------------------------------------------------------------------------
     Startup and absent keys
     --------------------------------------------------------------------------- */

  /**
    Before the schema exists every reset fails with 500 and changes nothing;
    after a successful setup a fault-free reset succeeds.
  */
  lemma ResetNeedsSchema(s: Store.State)
    ensures !s.tableExists ==> Step(s, Reset(Store.NoResetFaults)) == Store.Transition(s, ResetErrorResponse)
    ensures Step(Store.SetupDatabase(s, false).next, Reset(Store.NoResetFaults))
         == Store.Transition(Store.ResetState, ResetResponse)
  {
  }

  /**
    While the key is absent (no reset has reached Redis), every buy answers 500,
    never sold out, and nothing changes.
  */
  lemma {:induction false} AbsentKeyIsAnError(s: Store.State, reqs: seq<Request>)
    requires s.counter.None?
    requires AllBuys(reqs)
    ensures var r := Serve(s, reqs);
            r.next == s && forall i :: 0 <= i < |reqs| ==> r.out[i] == BuyErrorResponse
    decreases |reqs|
  {
    if |reqs| > 0 {
      AbsentKeyIsAnError(Step(s, reqs[0]).next, reqs[1..]);
    }
  }
}

=== FILE: store.dfy ===
/**
  The repository layer of TicketBlitz: one Postgres table `inventory` (the ledger)
  and one Redis key `ticket_inventory` (the operational counter).

  Redis executes every command and every Lua script indivisibly, and Postgres
  executes every statement indivisibly, so each backend call is one pure step
  from a `State` to the next. A buy is a single call; a reset is three (TRUNCATE,
  INSERT, SET), composed in order. Backend failures are not decided here: every step takes a failure-injection
  parameter saying how its round trip went.
*/
module Store {
  import opened Wrappers

  /** The stock level written by a reset; a literal in the source, not a parameter. */
  const ResetStock: int := 100

  /** The fixed primary key of the single inventory row. */
  const RowId: int := 1

  /** A row of the Postgres table `inventory (id SERIAL PRIMARY KEY, stock INT)`. */
  datatype Row = Row(id: int, stock: int)

  /**
    Both backends. `tableExists` is whether `inventory` has been created,
    `ledger` its rows, and `counter` the integer stored under `ticket_inventory`
    (`None` when the key is absent).
  */
  datatype State = State(tableExists: bool, ledger: seq<Row>, counter: Option<int>)

  /** How one Redis round trip went. */
  datatype Link =
    | Delivered      // Redis ran the command and the client read its reply
    | NotDelivered   // the command never reached Redis (connection refused, dial timeout)
    | ReplyLost      // Redis ran the command but the client saw a transport error

  /** The SQL statements the repository issues. */
  datatype Statement = CreateTable | Truncate | Insert

  /** The Go `error` values a repository call can return. */
  datatype StoreError =
    | LuaCompareNil                  // the script evaluated `nil > 0` and raised
    | RedisUnreachable               // the command never reached Redis
    | RedisReplyLost                 // the command ran but its reply was lost
    | PostgresFailed(stmt: Statement)

  /** Go's `(bool, error)` pair as `BuyTicketAtomic` returns it. */
  datatype BuyResult = BuyResult(success: bool, err: Option<StoreError>)

  /** The state a step leaves behind together with what it returned. */
  datatype Transition<+T> = Transition(next: State, out: T)

  /** The outcome of running the Lua script inside Redis. */
  datatype ScriptReply =
    | Returned(code: int, counter: Option<int>)
    | Raised(err: StoreError)

  /** Faults injected into the three statements of a reset. */
  datatype ResetFaults = ResetFaults(truncateFails: bool, insertFails: bool, setLink: Link)

  /** A reset during which every backend call succeeds. */
  const NoResetFaults := ResetFaults(false, false, Delivered)

  /** The state every successful reset leaves behind. */
  const ResetState := State(true, [Row(RowId, ResetStock)], Some(ResetStock))

  /* ---------------------------------------------------------------------------
     BuyTicketAtomic
     --------------------------------------------------------------------------- */

  /**
    The Lua script, run by Redis as one indivisible command on the counter.
    `tonumber(GET key)` is nil for an absent key, and comparing nil with a number
    raises; a present value is decremented only when it is positive.
  */
  function GuardedDecrement(counter: Option<int>): ScriptReply
  {
    match counter
    case None => Raised(LuaCompareNil)
    case Some(stock) =>
      if stock > 0 then Returned(1, Some(stock - 1))
      else Returned(0, counter)
  }

  /**
    `Repo.BuyTicketAtomic`: evaluate the script over the link and turn its reply
    into `(result == 1, nil)`, or into `(false, err)` when the call failed.
  */
  function BuyTicketAtomic(s: State, link: Link): (r: Transition<BuyResult>)
    // a buy never touches the ledger or the schema
    ensures r.next.ledger == s.ledger && r.next.tableExists == s.tableExists
    // the counter either stays put or drops by exactly one from a positive value
    ensures r.next.counter == s.counter
         || (s.counter.Some? && s.counter.value > 0 && r.next.counter == Some(s.counter.value - 1))
    // a purchase is reported exactly when the script saw positive stock and the reply arrived
    ensures r.out.success <==> link == Delivered && s.counter.Some? && s.counter.value > 0
    ensures r.out.success ==> r.out.err.None? && r.next.counter == Some(s.counter.value - 1)
    // sold out is reported exactly when the script saw a present, non-positive value
    ensures (!r.out.success && r.out.err.None?)
        <==> link == Delivered && s.counter.Some? && s.counter.value <= 0
    ensures !r.out.success && r.out.err.None? ==> r.next == s
    // an error never comes with `true`
    ensures r.out.err.Some? ==> !r.out.success
    // an absent key is an error, never sold out, and changes nothing
    ensures s.counter.None? ==> r.out.err.Some? && r.next == s
    ensures s.counter.None? && link == Delivered ==> r.out.err == Some(LuaCompareNil)
    // a command that never reached Redis changes nothing
    ensures link == NotDelivered ==> r == Transition(s, BuyResult(false, Some(RedisUnreachable)))
    // a lost reply is an error, yet the script still ran: positive stock was consumed
    ensures link == ReplyLost ==> r.out == BuyResult(false, Some(RedisReplyLost))
    ensures link == ReplyLost ==>
              r.next.counter == (if s.counter.Some? && s.counter.value > 0 then Some(s.counter.value - 1) else s.counter)
  {
    match link
    case NotDelivered => Transition(s, BuyResult(false, Some(RedisUnreachable)))
    case ReplyLost =>
      var reply := GuardedDecrement(s.counter);
      var counter := if reply.Returned? then reply.counter else s.counter;
      Transition(s.(counter := counter), BuyResult(false, Some(RedisReplyLost)))
    case Delivered =>
      match GuardedDecrement(s.counter)
      case Raised(e) => Transition(s, BuyResult(false, Some(e)))
      case Returned(code, counter) => Transition(s.(counter := counter), BuyResult(code == 1, None))
  }

  /* ---------------------------------------------------------------------------
     ResetInventory
     --------------------------------------------------------------------------- */

  /** `TRUNCATE inventory`: fails when the table is missing or the statement fails. */
  function TruncateLedger(s: State, fails: bool): (r: Transition<Option<StoreError>>)
    ensures r.out.None? <==> s.tableExists && !fails
    ensures r.out.None? ==> r.next == s.(ledger := [])
    ensures r.out.Some? ==> r.next == s
  {
    if !s.tableExists || fails then Transition(s, Some(PostgresFailed(Truncate)))
    else Transition(s.(ledger := []), None)
  }

  /** True when `id` is already taken in `ledger`. */
  predicate HasId(ledger: seq<Row>, id: int)
  {
    exists i :: 0 <= i < |ledger| && ledger[i].id == id
  }

  /**
    `INSERT INTO inventory (id, stock) VALUES (...)`: fails when the table is
    missing, the primary key is taken, or the statement fails.
  */
  function InsertRow(s: State, row: Row, fails: bool): (r: Transition<Option<StoreError>>)
    ensures r.out.None? <==> s.tableExists && !HasId(s.ledger, row.id) && !fails
    ensures r.out.None? ==> r.next == s.(ledger := s.ledger + [row])
    ensures r.out.Some? ==> r.next == s
  {
    if !s.tableExists || HasId(s.ledger, row.id) || fails then Transition(s, Some(PostgresFailed(Insert)))
    else Transition(s.(ledger := s.ledger + [row]), None)
  }

  /**
    `SET ticket_inventory value`: overwrites the key whatever it held. A lost
    reply still leaves the new value written.
  */
  function SetCounter(s: State, value: int, link: Link): (r: Transition<Option<StoreError>>)
    ensures r.out.None? <==> link == Delivered
    ensures r.next.ledger == s.ledger && r.next.tableExists == s.tableExists
    ensures r.next.counter == (if link == NotDelivered then s.counter else Some(value))
  {
    match link
    case NotDelivered => Transition(s, Some(RedisUnreachable))
    case ReplyLost => Transition(s.(counter := Some(value)), Some(RedisReplyLost))
    case Delivered => Transition(s.(counter := Some(value)), None)
  }

  /**
    `Repo.ResetInventory`: truncate the ledger, insert the row `(1, 100)`, then
    set the counter to 100, returning the first error met.
  */
  function ResetInventory(s: State, f: ResetFaults): (r: Transition<Option<StoreError>>)
    // the schema is never changed by a reset
    ensures r.next.tableExists == s.tableExists
    // success exactly when the table exists and no backend call fails
    ensures r.out.None? <==> s.tableExists && f == NoResetFaults
    // success overwrites both stores with the canonical stock, whatever they held
    ensures r.out.None? ==> r.next == ResetState
    // a failed TRUNCATE changes nothing
    ensures !s.tableExists || f.truncateFails ==> r == Transition(s, Some(PostgresFailed(Truncate)))
    // a failed INSERT leaves the ledger empty and the counter unchanged
    ensures s.tableExists && !f.truncateFails && f.insertFails
         ==> r == Transition(s.(ledger := []), Some(PostgresFailed(Insert)))
    // the counter is written only after both ledger statements succeeded
    ensures r.next.counter != s.counter
         ==> r.next.ledger == [Row(RowId, ResetStock)] && r.next.counter == Some(ResetStock)
    ensures r.next.counter == s.counter || r.next.counter == Some(ResetStock)
    // a failed SET after both ledger statements is the partial reset: the ledger is
    // rewritten, while the counter is stale (never delivered) or rewritten (reply lost)
    ensures s.tableExists && !f.truncateFails && !f.insertFails && f.setLink != Delivered
         ==> && r.out.Some?
             && r.next.ledger == [Row(RowId, ResetStock)]
             && r.next.counter == (if f.setLink == NotDelivered then s.counter else Some(ResetStock))
  {
    var t := TruncateLedger(s, f.truncateFails);
    if t.out.Some? then t
    else
      var i := InsertRow(t.next, Row(RowId, ResetStock), f.insertFails);
      if i.out.Some? then i
      else SetCounter(i.next, ResetStock, f.setLink)
  }

  /** Two successful resets in a row leave exactly what one leaves: reset overwrites, never accumulates. */
  lemma ResetTwice(s: State)
    requires ResetInventory(s, NoResetFaults).out.None?
    ensures ResetInventory(ResetInventory(s, NoResetFaults).next, NoResetFaults)
         == Transition(ResetState, None)
  {
  }

  /* ---------------------------------------------------------------------------
     SetupDatabase
     --------------------------------------------------------------------------- */

  /** `Repo.SetupDatabase`: `CREATE TABLE IF NOT EXISTS inventory`. */
  function SetupDatabase(s: State, fails: bool): (r: Transition<Option<StoreError>>)
    ensures r.out.None? <==> !fails
    ensures r.out.None? ==> r.next.tableExists
    // existing rows and the counter are left alone
    ensures r.next.ledger == s.ledger && r.next.counter == s.counter
    ensures r.out.Some? ==> r.next == s
  {
    if fails then Transition(s, Some(PostgresFailed(CreateTable)))
    else Transition(s.(tableExists := true), None)
  }

  /** Running the schema setup a second time changes nothing. */
  lemma SetupIdempotent(s: State)
    ensures SetupDatabase(SetupDatabase(s, false).next, false) == SetupDatabase(s, false)
  {
  }

  /* ---------------------------------------------------------------------------
     Linearisation of a reset against concurrent buys
     --------------------------------------------------------------------------- */

  /**
    A buy commutes with each ledger statement of a reset: it reads and writes only
    the counter while they touch only the ledger. So a buy that Redis runs between
    the TRUNCATE, the INSERT and the SET of a reset has the same effect and result
    as one run before the reset began.
  */
  lemma BuyCommutesWithLedgerWrites(s: State, link: Link, f: ResetFaults)
    // TRUNCATE: both the buy's and the statement's results, and the final state, agree
    ensures var b := BuyTicketAtomic(TruncateLedger(s, f.truncateFails).next, link);
            var t := TruncateLedger(BuyTicketAtomic(s, link).next, f.truncateFails);
            && b.out == BuyTicketAtomic(s, link).out
            && t.out == TruncateLedger(s, f.truncateFails).out
            && b.next == t.next
    // INSERT: likewise
    ensures var row := Row(RowId, ResetStock);
            var b := BuyTicketAtomic(InsertRow(s, row, f.insertFails).next, link);
            var i := InsertRow(BuyTicketAtomic(s, link).next, row, f.insertFails);
            && b.out == BuyTicketAtomic(s, link).out
            && i.out == InsertRow(s, row, f.insertFails).out
            && b.next == i.next
    // a buy between the INSERT and the SET of a whole reset acts as one run before the reset
    ensures var t := TruncateLedger(s, f.truncateFails);
            var i := InsertRow(t.next, Row(RowId, ResetStock), f.insertFails);
            t.out.None? && i.out.None? ==>
              var b := BuyTicketAtomic(i.next, link);
              var r := ResetInventory(BuyTicketAtomic(s, link).next, f);
              && b.out == BuyTicketAtomic(s, link).out
              && SetCounter(b.next, ResetStock, f.setLink) == r
  {
    var row := Row(RowId, ResetStock);
    assert HasId(BuyTicketAtomic(s, link).next.ledger, row.id) == HasId(s.ledger, row.id);
  }
}

=== FILE: wrappers.dfy ===
/** The optional value shared by the model: an absent Redis key or a nil Go `error`. */
module Wrappers {

  /** A value that may be absent. */
  datatype Option<+T> = None | Some(value: T)
}
